=== FILE: README.md ===
# Rounding division and `Ratio` scaling of the `num` crate

This project models the integer core of the `num` crate's `lib.rs`:

- the unsigned rounding divisions `div_floor` and `div_ceil`;
- the signed divisions of an `i32` by a `u32`: `idiv_rem` (truncating), `idiv_floor` and `idiv_ceil`;
- `clamp`;
- the `Ratio { num, div }` scale factor with `Default`, `ceil`, `ifloor`, `iceil`,
  `Ratio * u32` and `u32 / Ratio`.

Each operation's contract relates it to exact integer arithmetic: the floor or ceiling
of `n / d`, or `n == q * d + m`.

Rust integer arithmetic is modelled as a debug build executes it (module `RustInt`).
An addition, subtraction or multiplication whose result leaves the 32-bit range does
not wrap: it panics. Dividing by zero panics. Dividing `i32::MIN` by `-1` panics in
every build. A panic is the `Panic(fault)` case of `Result`. Every operation therefore
states two things:

- the exact set of inputs on which it panics, and with which fault;
- what it returns on all other inputs, within the ranges named under `## Left out`.

`as` casts between `u32` and `i32` never panic. They wrap, and `AsI32` models that
wrapping. A divisor of `idiv_*`, or a numerator of `ifloor`/`iceil`, above `i32::MAX`
therefore acts as a negative number, and the result is in general not the floor or
ceiling (`idiv_floor(5, u32::MAX) == -5`). Lemmas exhibit both cases.

Modules:

- `RustInt` (`rust_int.dfy`): the 32-bit bounds and `u32`/`i32` types, `Result`, the
  checked primitives, truncating division, and the wrapping cast.
- `Rounding` (`rounding.dfy`): the five division helpers. It also defines the
  predicates `IsFloorOf`, `IsCeilOf` and `IsTruncDivision`, and proves that they match
  Dafny's Euclidean `/` and `%`, which are independent reference definitions.
  `SubtractionFloor` and `SubtractionCeil` are a second reference: they define floor
  and ceiling division recursively, as counts of repeated subtractions of `d`.
- `Clamping` (`clamp.dfy`): `clamp` over integers.
- `Ratios` (`ratio.dfy`): `Ratio` and its scaling operations.

`div_ceil` looks as if it needs only `n + d - 1 <= u32::MAX`, but the code evaluates
`(n + d) - 1`, so it panics as soon as `n + d` exceeds `u32::MAX`. The model follows the code:
`DivCeil(u32::MAX, 1)` panics, and so does `Ratio::default().ceil(u32::MAX)`.

## Model

| member | source | states |
|---|---|---|
| RustInt.TruncDiv | lib.rs:38 | the `i32` quotient rounds toward zero: the remainder is smaller than the divisor in magnitude and is zero or has the sign of `n`; the magnitude of the quotient is the floor of the magnitudes' quotient |
| RustInt.TruncRem | lib.rs:38 | the `i32` remainder differs from `n` by a multiple of the divisor, is smaller in magnitude than the divisor and no larger in magnitude than `n`, and is zero or has the sign of `n` |
| RustInt.AsI32 | lib.rs:38 | `u as i32` keeps the same 32 bits: the result lies in the `i32` range and is congruent to `u` modulo `2^32` |
| Rounding.DivFloor | lib.rs:35 | panics with divide-by-zero exactly when `d == 0`; otherwise returns `q` with `q*d <= n < (q+1)*d` |
| Rounding.DivCeil | lib.rs:36 | panics exactly when `d == 0` (an overflow when `n == 0`, otherwise divide-by-zero) or when `n + d > u32::MAX` (overflow); otherwise returns the least `q` with `q*d >= n` |
| Rounding.DivCeilAboveFloor | lib.rs:35-36 | wherever `div_ceil` succeeds, it equals `div_floor` when `d` divides `n` and `div_floor + 1` otherwise |
| Rounding.DivMatchesSubtraction | lib.rs:35-36 | for `d != 0`, `div_floor` returns the repeated-subtraction floor; wherever `div_ceil` does not overflow, it returns the repeated-subtraction ceiling |
| Rounding.DivCeilPanicsAtTop | lib.rs:36 | the ceiling of `u32::MAX / 1` fits in a `u32`, yet `div_ceil(u32::MAX, 1)` panics with overflow |
| Rounding.IdivRem | lib.rs:38 | panics with divide-by-zero when `d == 0` and with overflow for `(i32::MIN, u32::MAX)`; otherwise `n == q*(d as i32) + m` with `abs(m) < abs(d as i32)` and `m` zero or of the sign of `n`; for `0 < d <= i32::MAX` this is truncating division by `d` itself |
| Rounding.TruncDivisionUnique | lib.rs:38 | the truncating-division conditions determine the quotient and remainder uniquely, so `IdivRem`'s contract pins down its result |
| Rounding.IdivFloor | lib.rs:39-42 | panics exactly where `idiv_rem` panics, since lowering the quotient never overflows; for `0 < d <= i32::MAX` returns `q` with `q*d <= n < (q+1)*d` |
| Rounding.IdivCeil | lib.rs:43-46 | panics exactly where `idiv_rem` panics, since raising the quotient never overflows; for `0 < d <= i32::MAX` returns `q` with `(q-1)*d < n <= q*d` |
| Rounding.IdivFloorCeilAgree | lib.rs:39-46 | for `0 < d <= i32::MAX` the floor is Euclidean `n / d` and the ceiling is `-((-n) / d)`; they are equal exactly when `d` divides `n` and otherwise the ceiling is one more |
| Rounding.IdivNegativeSevenByTwo | lib.rs:39-46 | `idiv_floor(-7, 2) == -4` and `idiv_ceil(-7, 2) == -3` |
| Rounding.IdivFloorWrapsLargeDivisor | lib.rs:38-42 | a divisor above `i32::MAX` wraps in the cast: `idiv_floor(5, u32::MAX)` is `-5`, but the floor of `5 / 4294967295` is `0` |
| Clamping.Clamp | lib.rs:55 | the result is one of `min`, `x`, `max`; it lies in `[min, max]` when `min <= max`; it equals `x` inside that range exactly when `x` is in it; with ordered bounds an `x` below gives `min` and an `x` above gives `max` |
| Clamping.ClampIsNearest | lib.rs:55 | with ordered bounds the result is the point of `[min, max]` nearest to `x` |
| Clamping.ClampIdempotent | lib.rs:55 | with ordered bounds, clamping an already clamped value changes nothing |
| Clamping.ClampMonotone | lib.rs:55 | with ordered bounds, clamping preserves the order of its argument |
| Clamping.ClampCrossedBounds | lib.rs:55 | with `max < min` the result is `min` below `min` and `max` otherwise |
| Ratios.Ceil | lib.rs:60 | panics with overflow when `x*num` or `x*num + div` exceeds `u32::MAX` or when `div == 0` and `x*num == 0`, and with divide-by-zero when `div == 0` and `x*num > 0`; otherwise returns the ceiling of `x*num / div` |
| Ratios.Mul | lib.rs:65 | panics with overflow when `b*num` exceeds `u32::MAX`, and with divide-by-zero when `div == 0`; otherwise returns the floor of `b*num / div` |
| Ratios.Div | lib.rs:66 | panics with overflow when `x*div` exceeds `u32::MAX`, and with divide-by-zero when `num == 0`; otherwise returns the floor of `x*div / num` |
| Ratios.IFloor | lib.rs:61 | panics exactly when `x * (num as i32)` leaves the `i32` range (overflow) or `idiv_floor` panics on it (divide-by-zero for `div == 0`, overflow for the product `i32::MIN` with `div == u32::MAX`); with `num, div <= i32::MAX` returns the floor of `x*num / div` |
| Ratios.ICeil | lib.rs:62 | panics exactly when `x * (num as i32)` leaves the `i32` range (overflow) or `idiv_ceil` panics on it (divide-by-zero for `div == 0`, overflow for the product `i32::MIN` with `div == u32::MAX`); with `num, div <= i32::MAX` returns the ceiling of `x*num / div` |
| Ratios.CeilBracketsMul | lib.rs:60-65 | wherever `ceil` succeeds, `r * x <= r.ceil(x) <= r * x + 1`, with equality exactly when `div` divides `x*num` |
| Ratios.ThreeQuartersOfTen | lib.rs:60-65 | `Ratio{3,4}.ceil(10) == 8` and `Ratio{3,4} * 10 == 7` |
| Ratios.DivIsReciprocalMul | lib.rs:65-66 | `x / r` equals `Ratio{r.div, r.num} * x` on every input, panics included |
| Ratios.DefaultIsIdentity | lib.rs:58-66 | states the contract of `Ratios.Default` (`Ratio::default()`, lib.rs:58): the default ratio is `{1, 1}`; `*`, `/`, `ifloor` and `iceil` by it return their argument; `ceil` does too below `u32::MAX` and panics at `u32::MAX` |
| Ratios.IFloorMatchesMul | lib.rs:61-65 | on non-negative input with `num <= i32::MAX`, `0 < div <= i32::MAX` and no overflow, `ifloor` and `Ratio * u32` agree |
| Ratios.ICeilMatchesCeil | lib.rs:60-62 | on non-negative input with `num <= i32::MAX`, `0 < div <= i32::MAX` and no `i32` overflow, neither `iceil` nor `ceil` panics and they agree |
| Ratios.ICeilBracketsIFloor | lib.rs:61-62 | with `num <= i32::MAX`, `0 < div <= i32::MAX` and no overflow, `ifloor(x) <= iceil(x) <= ifloor(x) + 1`, with equality exactly when `div` divides `x*num` |
| Ratios.IFloorWrapsLargeNumerator | lib.rs:61 | a numerator above `i32::MAX` wraps in the cast: `Ratio{u32::MAX, 1}.ifloor(1)` is `-1` |
| Ratios.ZeroDivisorPanics | lib.rs:60-66 | `Ratio{1,0}.ceil(5)`, `Ratio{1,0} * 5` and `5 / Ratio{0,1}` reach the divide-by-zero panic instead of returning a value |

## Left out

- Floating-point functions `floor`, `fract`, `sqrt`, `cos`, `sin` and `atan` (lib.rs:48-53) are not modelled, because IEEE 754 arithmetic is out of scope.
- `From<Ratio> for f32` (lib.rs:64) and `Mul<f32> for Ratio` (lib.rs:67) are not modelled, for the same reason.
- The `Zero`, `IsZero` and `Signed` traits, `zero`, `sign`, `abs`, `sq` and `cb` (lib.rs:3-33) are not modelled. They are generic glue that delegates to the standard library.
- The `array` feature instance of `Zero` (lib.rs:18) is not modelled. It needs an unstable compiler feature and an external `array::map`.
- Release-build wrap-around of `+`, `-` and `*` is not modelled. Overflow is modelled as a panic, which is what a debug build does.
- Clamping.Clamp: modelled over integers only. The source is generic over `PartialOrd`, and comparisons involving a float NaN are not modelled.
- Ratios.IFloor and Ratios.ICeil: a floor or ceiling is promised only when `num` and `div` are at most `i32::MAX`. Outside that range, the contract states only when the operation panics. The value there comes from the wrapping cast, as `IFloorWrapsLargeNumerator` shows.
- Rounding.IdivFloor and Rounding.IdivCeil: a floor or ceiling is promised only for `0 < d <= i32::MAX`. For larger divisors their own contracts state only when they panic, not the value; the value follows from `IdivRem`'s contract, which divides by `d as i32`.
- `rcp`, `Ratio * Ratio`, ordering of ratios and `i32` operators are not defined in this `lib.rs`, so they are not modelled. Structural equality of `Ratio` (the derived `PartialEq`) is Dafny's datatype equality.

=== FILE: clamp.dfy ===
/**
 `clamp(min, x, max)` of `lib.rs`, over integers: `min` when `x < min`, otherwise `max`
 when `x > max`, otherwise `x`.
 */
module Clamping {
  import opened RustInt

  function Clamp(min: int, x: int, max: int): (r: int)
    ensures r == min || r == x || r == max
    ensures min <= max ==> min <= r <= max
    ensures min <= x <= max <==> r == x && min <= r <= max
    ensures min <= max && x < min ==> r == min
    ensures min <= max && x > max ==> r == max
  {
    if x < min then min else if x > max then max else x
  }

  /** With ordered bounds, the result is the point of `[min, max]` nearest to `x`. */
  lemma ClampIsNearest(min: int, x: int, y: int, max: int)
    requires min <= y <= max
    ensures Abs(Clamp(min, x, max) - x) <= Abs(y - x)
  {
  }

  /** Clamping twice is clamping once. */
  lemma ClampIdempotent(min: int, x: int, max: int)
    requires min <= max
    ensures Clamp(min, Clamp(min, x, max), max) == Clamp(min, x, max)
  {
  }

  /** Clamping preserves the order of its argument. */
  lemma ClampMonotone(min: int, x: int, y: int, max: int)
    requires min <= max && x <= y
    ensures Clamp(min, x, max) <= Clamp(min, y, max)
  {
  }

  /** When the bounds are crossed the lower bound wins below it and the upper bound elsewhere. */
  lemma ClampCrossedBounds(min: int, x: int, max: int)
    requires max < min
    ensures Clamp(min, x, max) == (if x < min then min else max)
  {
  }
}

=== FILE: ratio.dfy ===
/**
 The `Ratio` scale factor of `lib.rs`: an unreduced fraction `num / div` of two u32
 values that scales integers and rounds the result down or up. Every operation panics
 where the Rust code panics (overflow of the product, or a zero divisor) and otherwise
 returns the floor or ceiling of the exactly scaled value.
 */
module Ratios {
  import opened RustInt
  import opened Rounding

  /** `num / div`, not reduced; `{0, 0}` and `{n, 0}` can be built and panic when used. */
  datatype Ratio = Ratio(num: u32, div: u32)

  /** `Ratio::default()`, the unit ratio. */
  function Default(): Ratio {
    Ratio(1, 1)
  }

  /** `r.ceil(x)`: `div_ceil(x * num, div)`, the scaled value rounded up. The product must
      fit in u32, and so must the sum `x * num + div` formed inside `div_ceil`. */
  function Ceil(r: Ratio, x: u32): (y: Result<u32>)
    ensures y.Ok? <==> r.div != 0 && x * r.num + r.div <= U32_MAX
    ensures y.Ok? ==> IsCeilOf(y.value, x * r.num, r.div)
    ensures x * r.num > U32_MAX ==> y == Panic(Overflow)
    ensures r.div == 0 && 0 < x * r.num <= U32_MAX ==> y == Panic(DivideByZero)
    ensures r.div == 0 && x * r.num == 0 ==> y == Panic(Overflow)
    ensures x * r.num <= U32_MAX < x * r.num + r.div ==> y == Panic(Overflow)
  {
    var p :- MulU32(x, r.num);
    DivCeil(p, r.div)
  }

  /** `r * b` for `b: u32`: `div_floor(b * num, div)`, the scaled value rounded down. */
  function Mul(r: Ratio, b: u32): (y: Result<u32>)
    ensures y.Ok? <==> r.div != 0 && b * r.num <= U32_MAX
    ensures y.Ok? ==> IsFloorOf(y.value, b * r.num, r.div)
    ensures b * r.num > U32_MAX ==> y == Panic(Overflow)
    ensures r.div == 0 && b * r.num <= U32_MAX ==> y == Panic(DivideByZero)
  {
    var p :- MulU32(b, r.num);
    DivFloor(p, r.div)
  }

  /** `x / r` for `x: u32`: `div_floor(x * div, num)`, `x` scaled by the reciprocal and
      rounded down. */
  function Div(x: u32, r: Ratio): (y: Result<u32>)
    ensures y.Ok? <==> r.num != 0 && x * r.div <= U32_MAX
    ensures y.Ok? ==> IsFloorOf(y.value, x * r.div, r.num)
    ensures x * r.div > U32_MAX ==> y == Panic(Overflow)
    ensures r.num == 0 && x * r.div <= U32_MAX ==> y == Panic(DivideByZero)
  {
    var p :- MulU32(x, r.div);
    DivFloor(p, r.num)
  }

  /** `r.ifloor(x)`: `idiv_floor(x * num as i32, div)`. The cast wraps, so the product is
      the scaled value only when `num <= i32::MAX`, and the rounding is a floor only when
      `0 < div <= i32::MAX`. */
  function IFloor(r: Ratio, x: i32): (y: Result<i32>)
    ensures y.Ok? <==> I32_MIN <= x * AsI32(r.num) <= I32_MAX && IdivDefined(x * AsI32(r.num), r.div)
    ensures y.Ok? && r.num <= I32_MAX && r.div <= I32_MAX ==> IsFloorOf(y.value, x * r.num, r.div)
    ensures !(I32_MIN <= x * AsI32(r.num) <= I32_MAX) ==> y == Panic(Overflow)
    ensures I32_MIN <= x * AsI32(r.num) <= I32_MAX && r.div == 0 ==> y == Panic(DivideByZero)
    ensures x * AsI32(r.num) == I32_MIN && r.div == U32_MAX ==> y == Panic(Overflow)
  {
    var p :- MulI32(x, AsI32(r.num));
    IdivFloor(p, r.div)
  }

  /** `r.iceil(x)`: `idiv_ceil(x * num as i32, div)`, under the same caveats as `IFloor`. */
  function ICeil(r: Ratio, x: i32): (y: Result<i32>)
    ensures y.Ok? <==> I32_MIN <= x * AsI32(r.num) <= I32_MAX && IdivDefined(x * AsI32(r.num), r.div)
    ensures y.Ok? && r.num <= I32_MAX && r.div <= I32_MAX ==> IsCeilOf(y.value, x * r.num, r.div)
    ensures !(I32_MIN <= x * AsI32(r.num) <= I32_MAX) ==> y == Panic(Overflow)
    ensures I32_MIN <= x * AsI32(r.num) <= I32_MAX && r.div == 0 ==> y == Panic(DivideByZero)
    ensures x * AsI32(r.num) == I32_MIN && r.div == U32_MAX ==> y == Panic(Overflow)
  {
    var p :- MulI32(x, AsI32(r.num));
    IdivCeil(p, r.div)
  }

  /** Rounding up lands on the rounded-down product or one above it, and on the same value
      exactly when `div` divides `x * num`. */
  lemma CeilBracketsMul(r: Ratio, x: u32)
    requires r.div != 0 && x * r.num + r.div <= U32_MAX
    ensures Ceil(r, x).Ok? && Mul(r, x).Ok?
    ensures Mul(r, x).value <= Ceil(r, x).value <= Mul(r, x).value + 1
    ensures Ceil(r, x).value == Mul(r, x).value <==> (x * r.num) % r.div == 0
  {
    DivCeilAboveFloor(x * r.num, r.div);
  }

  /** `3/4` of `10` is `7.5`: `ceil` gives `8` and `*` gives `7`. */
  lemma ThreeQuartersOfTen()
    ensures Ceil(Ratio(3, 4), 10) == Ok(8)
    ensures Mul(Ratio(3, 4), 10) == Ok(7)
  {
    FloorIsEuclidean(Mul(Ratio(3, 4), 10).value, 30, 4);
    CeilIsNegatedFloor(Ceil(Ratio(3, 4), 10).value, 30, 4);
  }

  /** Dividing by a ratio is multiplying by its reciprocal, panics included. */
  lemma DivIsReciprocalMul(x: u32, r: Ratio)
    ensures Div(x, r) == Mul(Ratio(r.div, r.num), x)
  {
  }

  /** The default ratio leaves every value unchanged, except that `ceil` of `u32::MAX`
      panics on the `n + d` inside `div_ceil`. */
  lemma DefaultIsIdentity(x: u32, i: i32)
    ensures Default() == Ratio(1, 1)
    ensures Mul(Default(), x) == Ok(x)
    ensures Div(x, Default()) == Ok(x)
    ensures x < U32_MAX ==> Ceil(Default(), x) == Ok(x)
    ensures Ceil(Default(), U32_MAX) == Panic(Overflow)
    ensures IFloor(Default(), i) == Ok(i)
    ensures ICeil(Default(), i) == Ok(i)
  {
    FloorIsEuclidean(Mul(Default(), x).value, x, 1);
    FloorIsEuclidean(Div(x, Default()).value, x, 1);
    FloorIsEuclidean(IFloor(Default(), i).value, i, 1);
    CeilIsNegatedFloor(ICeil(Default(), i).value, i, 1);
    if x < U32_MAX {
      CeilIsNegatedFloor(Ceil(Default(), x).value, x, 1);
    }
  }

  /** On non-negative input with both fields at most `i32::MAX`, the signed and unsigned
      floor scalings agree. */
  lemma IFloorMatchesMul(r: Ratio, x: i32)
    requires 0 <= x && r.num <= I32_MAX && 0 < r.div <= I32_MAX && x * r.num <= I32_MAX
    ensures IFloor(r, x).Ok? && Mul(r, x).Ok?
    ensures IFloor(r, x).value == Mul(r, x).value
  {
    var p := x * r.num;
    assert AsI32(r.num) == r.num;
    var signed, unsigned := IFloor(r, x).value, Mul(r, x).value;
    FloorIsEuclidean(signed, p, r.div);
    FloorIsEuclidean(unsigned, p, r.div);
  }

  /** Likewise for rounding up; `x * num + div` then stays below `2^32`, so `ceil` does
      not panic either. */
  lemma ICeilMatchesCeil(r: Ratio, x: i32)
    requires 0 <= x && r.num <= I32_MAX && 0 < r.div <= I32_MAX && x * r.num <= I32_MAX
    ensures ICeil(r, x).Ok? && Ceil(r, x).Ok?
    ensures ICeil(r, x).value == Ceil(r, x).value
  {
    var p := x * r.num;
    assert AsI32(r.num) == r.num;
    var signed, unsigned := ICeil(r, x).value, Ceil(r, x).value;
    CeilIsNegatedFloor(signed, p, r.div);
    CeilIsNegatedFloor(unsigned, p, r.div);
  }

  /** Signed rounding up lands on the signed floor or one above it, and on the same value
      exactly when `div` divides `x * num`. */
  lemma ICeilBracketsIFloor(r: Ratio, x: i32)
    requires r.num <= I32_MAX && 0 < r.div <= I32_MAX && I32_MIN <= x * r.num <= I32_MAX
    ensures IFloor(r, x).Ok? && ICeil(r, x).Ok?
    ensures IFloor(r, x).value <= ICeil(r, x).value <= IFloor(r, x).value + 1
    ensures ICeil(r, x).value == IFloor(r, x).value <==> (x * r.num) % r.div == 0
  {
    IdivFloorCeilAgree(x * r.num, r.div);
  }

  /** A numerator above `i32::MAX` wraps negative in the cast: scaling `1` by
      `4294967295 / 1` gives `-1`. */
  lemma IFloorWrapsLargeNumerator()
    ensures IFloor(Ratio(U32_MAX, 1), 1) == Ok(-1)
  {
    assert AsI32(U32_MAX) == -1;
    FloorIsEuclidean(IFloor(Ratio(U32_MAX, 1), 1).value, -1, 1);
  }

  /** A zero denominator reaches the divide-by-zero panic rather than any value. */
  lemma ZeroDivisorPanics()
    ensures Ceil(Ratio(1, 0), 5) == Panic(DivideByZero)
    ensures Div(5, Ratio(0, 1)) == Panic(DivideByZero)
    ensures Mul(Ratio(1, 0), 5) == Panic(DivideByZero)
  {
  }
}

=== FILE: rounding.dfy ===
/**
 The integer rounding-division helpers of `lib.rs`: unsigned floor and ceiling
 division, and signed truncating, floor and ceiling division of an `i32` by a `u32`.
 Each function returns the panic Rust raises where the code would panic, and otherwise
 a value whose relation to the exact quotient `n / d` is stated in its contract.
 */
module Rounding {
  import opened RustInt

  /** `q` is the floor of the exact quotient `n / d` (for `d > 0`). */
  ghost predicate IsFloorOf(q: int, n: int, d: int) {
    q * d <= n < (q + 1) * d
  }

  /** `q` is the ceiling of the exact quotient `n / d` (for `d > 0`). */
  ghost predicate IsCeilOf(q: int, n: int, d: int) {
    (q - 1) * d < n <= q * d
  }

  /** `(q, m)` is the truncating division of `n` by `d`: quotient rounded toward zero,
      remainder smaller than the divisor and carrying the sign of `n`. */
  ghost predicate IsTruncDivision(n: int, d: int, q: int, m: int) {
    && n == q * d + m
    && Abs(m) < Abs(d)
    && (m == 0 || (m < 0 <==> n < 0))
  }

  /** For a positive divisor, Dafny's (Euclidean) `/` is floor division, and the floor is unique. */
  lemma FloorIsEuclidean(q: int, n: int, d: int)
    requires d > 0
    ensures IsFloorOf(q, n, d) <==> q == n / d
  {
    var e := n / d;
    assert e * d <= n < (e + 1) * d;
    if IsFloorOf(q, n, d) {
      if q < e {
        MultipleAtLeast(e - q, d);
      } else if e < q {
        MultipleAtLeast(q - e, d);
      }
    }
  }

  /** Reference floor division: how many times `d` can be taken away from `n`. */
  function SubtractionFloor(n: nat, d: nat): (q: nat)
    requires d > 0
    ensures IsFloorOf(q, n, d)
    decreases n
  {
    if n < d then 0
    else
      var q' := SubtractionFloor(n - d, d);
      assert (q' + 1) * d == q' * d + d && (q' + 2) * d == (q' + 1) * d + d;
      q' + 1
  }

  /** Reference ceiling division: how many takings-away of `d` it needs to use up `n`. */
  function SubtractionCeil(n: nat, d: nat): (q: nat)
    requires d > 0
    ensures IsCeilOf(q, n, d)
    decreases n
  {
    if n == 0 then 0
    else if n <= d then 1
    else
      var q' := SubtractionCeil(n - d, d);
      assert (q' + 1) * d == q' * d + d && q' * d == (q' - 1) * d + d;
      q' + 1
  }

  /** The ceiling is the negated floor of the negation, hence also unique. */
  lemma CeilIsNegatedFloor(q: int, n: int, d: int)
    requires d > 0
    ensures IsCeilOf(q, n, d) <==> q == -((-n) / d)
  {
    assert IsCeilOf(q, n, d) <==> IsFloorOf(-q, -n, d) by {
      assert (q - 1) * d == -((-q + 1) * d);
      assert q * d == -((-q) * d);
    }
    FloorIsEuclidean(-q, -n, d);
  }

  /** The ceiling equals the floor when `d` divides `n` and exceeds it by one otherwise. */
  lemma CeilIsFloorOrNext(n: int, d: int)
    requires d > 0
    ensures -((-n) / d) == n / d + (if n % d == 0 then 0 else 1)
  {
    var f := n / d;
    assert n == f * d + n % d;
    var c := if n % d == 0 then f else f + 1;
    assert IsCeilOf(c, n, d) by {
      assert (c - 1) * d == c * d - d;
      assert (f + 1) * d == f * d + d;
    }
    CeilIsNegatedFloor(c, n, d);
  }

  /** `div_floor(n, d)`: `n / d` on u32; panics when `d` is zero. */
  function DivFloor(n: u32, d: u32): (q: Result<u32>)
    ensures d == 0 ==> q == Panic(DivideByZero)
    ensures d != 0 ==> q.Ok? && IsFloorOf(q.value, n, d)
  {
    DivU32(n, d)
  }

  /** `div_ceil(n, d)`: `(n + d - 1) / d` on u32. The sum `n + d` is formed first, so the
      code panics as soon as `n + d` exceeds `u32::MAX`; with `d == 0` it panics on
      `0 - 1` when `n == 0` and on the division otherwise. */
  function DivCeil(n: u32, d: u32): (q: Result<u32>)
    ensures d == 0 ==> q == Panic(if n == 0 then Overflow else DivideByZero)
    ensures n + d > U32_MAX ==> q == Panic(Overflow)
    ensures d != 0 && n + d <= U32_MAX ==> q.Ok? && IsCeilOf(q.value, n, d)
  {
    var s :- AddU32(n, d);
    var t :- SubU32(s, 1);
    var c :- DivU32(t, d);
    assert IsCeilOf(c, n, d) by {
      assert c * d <= n + d - 1 < (c + 1) * d;
      assert (c - 1) * d == c * d - d;
    }
    Ok(c)
  }

  /** Rounding up gives the floor, or one more exactly when `d` does not divide `n`. */
  lemma DivCeilAboveFloor(n: u32, d: u32)
    requires d != 0 && n + d <= U32_MAX
    ensures DivCeil(n, d).Ok? && DivFloor(n, d).Ok?
    ensures DivCeil(n, d).value == DivFloor(n, d).value <==> n % d == 0
    ensures DivCeil(n, d).value == DivFloor(n, d).value + (if n % d == 0 then 0 else 1)
  {
    FloorIsEuclidean(DivFloor(n, d).value, n, d);
    CeilIsNegatedFloor(DivCeil(n, d).value, n, d);
    CeilIsFloorOrNext(n, d);
  }

  /** `div_floor` and `div_ceil`, wherever they return a value, agree with the
      repeated-subtraction reference definitions. */
  lemma DivMatchesSubtraction(n: u32, d: u32)
    requires d != 0
    ensures DivFloor(n, d) == Ok(SubtractionFloor(n, d))
    ensures n + d <= U32_MAX ==> DivCeil(n, d) == Ok(SubtractionCeil(n, d))
  {
    FloorIsEuclidean(DivFloor(n, d).value, n, d);
    FloorIsEuclidean(SubtractionFloor(n, d), n, d);
    if n + d <= U32_MAX {
      CeilIsNegatedFloor(DivCeil(n, d).value, n, d);
      CeilIsNegatedFloor(SubtractionCeil(n, d), n, d);
    }
  }

  /** The ceiling of `u32::MAX / 1` fits in a u32, yet the code panics computing `n + d`. */
  lemma DivCeilPanicsAtTop()
    ensures IsCeilOf(U32_MAX, U32_MAX, 1)
    ensures DivCeil(U32_MAX, 1) == Panic(Overflow)
  {
  }

  /** The inputs on which `idiv_rem` and the functions built on it do not panic: a non-zero
      divisor, and not `i32::MIN` divided by `u32::MAX` (which the cast turns into `-1`). */
  predicate IdivDefined(n: i32, d: u32) {
    d != 0 && !(n == I32_MIN && d == U32_MAX)
  }

  /** `idiv_rem(n, d)`: `(n / d as i32, n % d as i32)`. The cast wraps, so a divisor above
      `i32::MAX` acts as the negative number `d - 2^32`; with `d == u32::MAX` the divisor is
      `-1` and `i32::MIN` overflows. */
  function IdivRem(n: i32, d: u32): (r: Result<(i32, i32)>)
    ensures d == 0 ==> r == Panic(DivideByZero)
    ensures n == I32_MIN && d == U32_MAX ==> r == Panic(Overflow)
    ensures IdivDefined(n, d) ==> r.Ok? && IsTruncDivision(n, AsI32(d), r.value.0, r.value.1)
    ensures 0 < d <= I32_MAX ==> r.Ok? && IsTruncDivision(n, d, r.value.0, r.value.1)
  {
    DivRemI32(n, AsI32(d))
  }

  /** The truncating quotient and remainder are determined by `IsTruncDivision`. */
  lemma TruncDivisionUnique(n: int, d: int, q: int, m: int)
    requires d != 0 && IsTruncDivision(n, d, q, m)
    ensures q == TruncDiv(n, d) && m == TruncRem(n, d)
  {
    var q', m' := TruncDiv(n, d), TruncRem(n, d);
    if q != q' {
      var k := q - q';
      Distribute(q, q', d);
      assert Abs(m' - m) < Abs(d) by {
        if m != 0 && m' != 0 {
          assert (m < 0) == (m' < 0);
        }
      }
      AbsProduct(k, d);
      MultipleAtLeast(Abs(k), Abs(d));
    }
  }

  lemma Distribute(a: int, b: int, c: int)
    ensures (a - b) * c == a * c - b * c
  {
  }

  /** The magnitude of a product is the product of the magnitudes. */
  lemma AbsProduct(a: int, b: int)
    ensures Abs(a * b) == Abs(a) * Abs(b)
  {
    NegateProduct(a, b);
    NegateProduct(-a, b);
    NegateProduct(a, -b);
  }

  /** A positive multiple of `b` is at least `b`. */
  lemma MultipleAtLeast(a: nat, b: nat)
    requires a >= 1
    ensures a * b >= b
  {
    assert a * b == (a - 1) * b + b;
  }

  /** Once a truncating division is inexact the divisor has magnitude two or more, so the
      quotient is at most half of `n` in magnitude: the one-step corrections below never
      overflow. */
  lemma InexactQuotientHalves(n: int, d: int, q: int, m: int)
    requires d != 0 && IsTruncDivision(n, d, q, m) && m != 0
    ensures 2 * Abs(q) <= Abs(n)
  {
    TruncDivisionUnique(n, d, q, m);
    QuotientShrinks(Abs(n), Abs(d));
  }

  /** For a positive divisor, the truncating quotient is corrected to the floor by
      lowering it on a negative remainder, and to the ceiling by raising it on a positive
      remainder. */
  lemma TruncCorrections(n: int, d: int, q: int, m: int)
    requires d != 0 && IsTruncDivision(n, d, q, m)
    ensures d > 0 ==> IsFloorOf(if m < 0 then q - 1 else q, n, d)
    ensures d > 0 ==> IsCeilOf(if m > 0 then q + 1 else q, n, d)
  {
    assert (q - 1) * d == q * d - d;
    assert (q + 1) * d == q * d + d;
  }

  /** `idiv_floor(n, d)`: the truncating quotient, lowered by one when the remainder is
      negative. For `0 < d <= i32::MAX` this is the mathematical floor of `n / d`. */
  function IdivFloor(n: i32, d: u32): (q: Result<i32>)
    ensures d == 0 ==> q == Panic(DivideByZero)
    ensures n == I32_MIN && d == U32_MAX ==> q == Panic(Overflow)
    ensures IdivDefined(n, d) ==> q.Ok?
    ensures 0 < d <= I32_MAX ==> q.Ok? && IsFloorOf(q.value, n, d)
  {
    var qr :- IdivRem(n, d);
    TruncCorrections(n, AsI32(d), qr.0, qr.1);
    if qr.1 < 0 then
      InexactQuotientHalves(n, AsI32(d), qr.0, qr.1);
      SubI32(qr.0, 1)
    else
      Ok(qr.0)
  }

  /** `idiv_ceil(n, d)`: the truncating quotient, raised by one when the remainder is
      positive. For `0 < d <= i32::MAX` this is the mathematical ceiling of `n / d`. */
  function IdivCeil(n: i32, d: u32): (q: Result<i32>)
    ensures d == 0 ==> q == Panic(DivideByZero)
    ensures n == I32_MIN && d == U32_MAX ==> q == Panic(Overflow)
    ensures IdivDefined(n, d) ==> q.Ok?
    ensures 0 < d <= I32_MAX ==> q.Ok? && IsCeilOf(q.value, n, d)
  {
    var qr :- IdivRem(n, d);
    TruncCorrections(n, AsI32(d), qr.0, qr.1);
    if qr.1 > 0 then
      InexactQuotientHalves(n, AsI32(d), qr.0, qr.1);
      AddI32(qr.0, 1)
    else
      Ok(qr.0)
  }

  /** For a divisor in `1..=i32::MAX`, floor and ceiling agree exactly when `d` divides `n`
      and otherwise differ by one; both coincide with the Euclidean reference definitions. */
  lemma IdivFloorCeilAgree(n: i32, d: u32)
    requires 0 < d <= I32_MAX
    ensures IdivFloor(n, d).Ok? && IdivCeil(n, d).Ok?
    ensures IdivFloor(n, d).value == n / d
    ensures IdivCeil(n, d).value == -((-(n as int)) / d)
    ensures IdivCeil(n, d).value == IdivFloor(n, d).value <==> n % d == 0
    ensures IdivCeil(n, d).value == IdivFloor(n, d).value + (if n % d == 0 then 0 else 1)
  {
    FloorIsEuclidean(IdivFloor(n, d).value, n, d);
    CeilIsNegatedFloor(IdivCeil(n, d).value, n, d);
    CeilIsFloorOrNext(n, d);
  }

  /** `-7 / 2 == -3.5`: floor `-4`, ceiling `-3`. */
  lemma IdivNegativeSevenByTwo()
    ensures IdivFloor(-7, 2) == Ok(-4)
    ensures IdivCeil(-7, 2) == Ok(-3)
  {
    IdivFloorCeilAgree(-7, 2);
  }

  /** A divisor above `i32::MAX` wraps negative in the cast: `u32::MAX` becomes `-1`, so
      `idiv_floor(5, u32::MAX)` is `-5`, while the floor of `5 / 4294967295` is `0`. */
  lemma IdivFloorWrapsLargeDivisor()
    ensures IdivFloor(5, U32_MAX) == Ok(-5)
    ensures IsFloorOf(0, 5, U32_MAX) && !IsFloorOf(-5, 5, U32_MAX)
  {
    assert AsI32(U32_MAX) == -1;
    assert TruncDiv(5, -1) == -5;
  }
}

=== FILE: rust_int.dfy ===
/**
 Rust's 32-bit integer arithmetic as a debug build executes it: every operation that
 would overflow, divide by zero or divide `i32::MIN` by `-1` panics instead of
 producing a value. A panic is modelled as the `Panic` case of `Result`, so that the
 operations built on top can state exactly when they fail.
 */
module RustInt {

  const U32_MAX: int := 0xFFFF_FFFF
  const I32_MIN: int := -0x8000_0000
  const I32_MAX: int := 0x7FFF_FFFF

  /** Number of distinct 32-bit patterns; an `as` cast between u32 and i32 wraps modulo it. */
  const TWO_TO_THE_32: int := 0x1_0000_0000

  type u32 = x: int | 0 <= x <= U32_MAX
  type i32 = x: int | I32_MIN <= x <= I32_MAX

  /** Why a Rust integer operation panicked. */
  datatype Fault = DivideByZero | Overflow

  /** The value of a computation, or the panic that stopped it. Usable with `:-`. */
  datatype Result<+T> = Ok(value: T) | Panic(fault: Fault) {

    predicate IsFailure() {
      Panic?
    }

    function PropagateFailure<U>(): Result<U>
      requires Panic?
    {
      Panic(fault)
    }

    function Extract(): T
      requires Ok?
    {
      value
    }
  }

  function Abs(x: int): nat {
    if x < 0 then -x else x
  }

  /** Division rounding toward zero, the rounding of Rust's `/` on signed integers. */
  function TruncDiv(n: int, d: int): (q: int)
    requires d != 0
    ensures Abs(n - q * d) < Abs(d)
    ensures n - q * d == 0 || (n - q * d < 0 <==> n < 0)
    ensures Abs(q) == Abs(n) / Abs(d)
  {
    if d > 0 then TruncDivByPositive(n, d)
    else
      var q' := TruncDivByPositive(n, -d);
      NegateProduct(q', d);
      -q'
  }

  /** Truncating division by a positive divisor, from Dafny's Euclidean `/`. */
  function TruncDivByPositive(n: int, d: int): (q: int)
    requires d > 0
    ensures 0 <= n ==> 0 <= n - q * d < d
    ensures n < 0 ==> -d < n - q * d <= 0
    ensures Abs(q) == Abs(n) / d
  {
    var a := Abs(n);
    var q', m' := a / d, a % d;
    assert a == q' * d + m' && 0 <= m' < d;
    if n >= 0 then
      q'
    else
      NegateProduct(q', d);
      assert n - (-q') * d == -m';
      -q'
  }

  /** Negation commutes with multiplication. */
  lemma NegateProduct(a: int, b: int)
    ensures (-a) * b == -(a * b) && a * (-b) == -(a * b)
  {
  }

  /** Dividing by at least one never grows a natural number, and dividing by at least two halves it. */
  lemma QuotientShrinks(a: nat, b: nat)
    requires b >= 1
    ensures a / b <= a
    ensures b >= 2 ==> 2 * (a / b) <= a
  {
    var q := a / b;
    assert q * b <= a;
    if b >= 2 {
      assert q * b >= q * 2;
    } else {
      assert q * b >= q;
    }
  }

  /** Remainder of `TruncDiv`, the result of Rust's `%` on signed integers. */
  function TruncRem(n: int, d: int): (m: int)
    requires d != 0
    ensures Abs(m) < Abs(d) && Abs(m) <= Abs(n)
    ensures m == 0 || (m < 0 <==> n < 0)
    ensures (n - m) % d == 0
  {
    n - TruncDiv(n, d) * d
  }

  /** `u as i32`: reinterprets the 32 bits, so values above `i32::MAX` become negative. */
  function AsI32(u: u32): (r: i32)
    ensures (u - r) % TWO_TO_THE_32 == 0
  {
    if u <= I32_MAX then u else u - TWO_TO_THE_32
  }

  function AddU32(a: u32, b: u32): Result<u32> {
    if a + b <= U32_MAX then Ok(a + b) else Panic(Overflow)
  }

  function SubU32(a: u32, b: u32): Result<u32> {
    if b <= a then Ok(a - b) else Panic(Overflow)
  }

  function MulU32(a: u32, b: u32): Result<u32> {
    if a * b <= U32_MAX then Ok(a * b) else Panic(Overflow)
  }

  function DivU32(a: u32, b: u32): Result<u32> {
    if b == 0 then Panic(DivideByZero) else Ok(a / b)
  }

  function AddI32(a: i32, b: i32): Result<i32> {
    if I32_MIN <= a + b <= I32_MAX then Ok(a + b) else Panic(Overflow)
  }

  function SubI32(a: i32, b: i32): Result<i32> {
    if I32_MIN <= a - b <= I32_MAX then Ok(a - b) else Panic(Overflow)
  }

  function MulI32(a: i32, b: i32): Result<i32> {
    if I32_MIN <= a * b <= I32_MAX then Ok(a * b) else Panic(Overflow)
  }

  /** Rust's `n / d` and `n % d` on i32, which panic on the same inputs in every build:
      a zero divisor, and `i32::MIN` divided by `-1`. */
  function DivRemI32(n: i32, d: i32): Result<(i32, i32)> {
    if d == 0 then Panic(DivideByZero)
    else if n == I32_MIN && d == -1 then Panic(Overflow)
    else
      var q := TruncDiv(n, d);
      QuotientShrinks(Abs(n), Abs(d));
      assert Abs(d) >= 2 ==> 2 * Abs(q) <= Abs(n);
      Ok((q, TruncRem(n, d)))
  }
}
